=== FILE: README.md ===
# Destructible objects of battle-tank, modelled in Dafny

This project models the `Destroyable` component of the battle-tank Unity game
(`Assets/Scripts/Destroyable.cs`). Each destructible object has a durability
counter (`ENDURANCE`, 3 by default). Every collision with an object whose name
contains `"Bullet"` wears the counter down by one. An object that is itself a
bullet stops what it hits (anything but the ground) and destroys itself.

When an update finds the counter at exactly zero on an object that is not a
fragment, the object is replaced by `explodePiece`'s twelve fragments, its
counter is set to the sentinel -1 and it is destroyed. Each fragment is a
clone of the object with these changes:

- it is renamed `…_Piece_n`;
- it is scaled to 0.5;
- it gets a dynamic rigidbody of unit mass;
- it is pushed and spun by one random vector;
- it is stripped of its differently named descendants;
- its auto-destroy flag is set.

From then on, every update of a fragment schedules a removal timer 2500 to
5000 frames ahead.

Files and modules:

- `names.dfy` (`Names`): `string.Contains`, the decimal rendering of the
  piece number, and the names of fragments.
- `numerics.dfy` (`Numerics`): the engine's `Random.Range` on floats, as a
  linear map of a draw in [0, 1]. Also C#'s truncating `/ 2` and
  `Mathf.FloorToInt` of the removal delay.
- `engine.dfy` (`Engine`): the engine objects the component works on.
  `GameObject` is a class with a name, a local scale, an optional rigidbody
  summary (`Body`) and its flattened descendant transforms. Destruction is
  deferred: `Destroy` sets `destroyRequested`, and the end of the frame sets
  `removed`.
- `lifecycle.dfy` (`Lifecycle`): the component's state (`Life`) and one
  function per event handler. `Run` plays a sequence of events. The lemmas
  cover whole runs: hit counting, at most and exactly one fragmentation,
  fragments never fragmenting, and the removal window.
- `destroyable.dfy` (`GameDev`): the class `Destroyable`. Each handler is
  proved to leave `Life()` equal to the matching `Lifecycle` step.
  `ExplodePiece` is a loop proved against `PieceState`, the state of one
  fragment.

Details of the code that the model keeps:

- A fragment's local scale is set to `scale` outright
  (`Assets/Scripts/Destroyable.cs:102`); it is not multiplied by the
  original's scale.
- Fragments lose durability to bullets like any other object
  (`Assets/Scripts/Destroyable.cs:53-58`). They only skip the depletion
  check, because their name contains `"_Piece"`.
- A flagged fragment schedules a new removal timer on every update
  (`Assets/Scripts/Destroyable.cs:76-87`), not only when no timer is
  running.
- The impulse range's lower bound is `force / 2` on `int`
  (`Assets/Scripts/Destroyable.cs:110`). For the default force 5 the range
  is [2, 10], not [2.5, 10].
- `mass` is set to 1 on every fragment's rigidbody
  (`Assets/Scripts/Destroyable.cs:107`), whether the rigidbody was just
  added or came with the clone.
- A clone's rigidbody keeps the original's settings but not its velocity
  or the forces applied to it, which are runtime state that `Instantiate`
  does not copy.
- `GetComponentsInChildren<Transform>()` lists active objects only
  (`Assets/Scripts/Destroyable.cs:118`), so an inactive descendant with
  another name is neither unparented nor destroyed.

`Random.Range` is called with the named argument `maxInclusive`. That
argument exists only on the float overload, so both the impulse components
and the removal delay come from closed real ranges.

## Model

| member | source | states |
|---|---|---|
| `Names.Contains` | Assets/Scripts/Destroyable.cs:40-41 | The ordinal substring test is true exactly when the pattern occurs at some index of the name. |
| `Names.Decimal` | Assets/Scripts/Destroyable.cs:101 | The rendering of the piece number is non-empty and all digits, and has one digit exactly for numbers below 10. |
| `Names.DecimalValue` | Assets/Scripts/Destroyable.cs:101 | The digits of the rendering spell the piece number itself, with no leading zero. |
| `Names.DecimalInjective` | Assets/Scripts/Destroyable.cs:101 | Different piece numbers are rendered as different strings. |
| `Names.PieceNameParts` | Assets/Scripts/Destroyable.cs:101 | A fragment name is the original's name, then `"_Piece"`, then `_`, then exactly `Decimal(i + 1)`: decimal digits with no leading zero that spell the 1-based iteration number. |
| `Names.PieceNameIsFragment` | Assets/Scripts/Destroyable.cs:101 | Every fragment name contains `"_Piece"`, so the depletion check skips fragments. |
| `Names.PieceNamesDistinct` | Assets/Scripts/Destroyable.cs:98-101 | The fragments made from one object in different iterations have different names. |
| `Numerics.Range` | Assets/Scripts/Destroyable.cs:110-112 | A draw lies in the closed interval between the two bounds, in either order, and both ends are reachable. |
| `Numerics.HalfTowardZero` | Assets/Scripts/Destroyable.cs:110 | C#'s `force / 2` truncates toward zero, for negative as well as positive `force`. |
| `Numerics.RemovalDelay` | Assets/Scripts/Destroyable.cs:83 | A fragment's removal delay, floored from a draw in [2500, 5000], is a whole number of frames in [2500, 5000]. |
| `Engine.Strip` | Assets/Scripts/Destroyable.cs:118-123 | After stripping, no active parented descendant has a name other than the fragment's. Each active descendant with another name is unparented and destroyed; one sharing the name, or inactive, is left unchanged. |
| `Engine.GameObject.StripChildren` | Assets/Scripts/Destroyable.cs:118-123 | The loop leaves the descendants as `Strip` gives them, and leaves every other field of the object, including its own destruction, unchanged. |
| `Engine.GameObject.Copy` | Assets/Scripts/Destroyable.cs:100 | `Instantiate` gives a live object with the template's name, scale and descendants, and its rigidbody settings without the runtime motion. |
| `Engine.GameObject.Destroy` | Assets/Scripts/Destroyable.cs:47 | `Destroy` only marks the object; nothing else changes. |
| `Engine.GameObject.EndOfFrame` | Assets/Scripts/Destroyable.cs:70 | At the end of the frame an object asked to be destroyed leaves the scene, and no other object does. |
| `Lifecycle.OnHit` | Assets/Scripts/Destroyable.cs:38-58 | A collision lowers the counter by exactly one when the partner's name contains `"Bullet"` and the object is live, and otherwise leaves it. The object is destroyed exactly when it already was, or it is a live bullet hitting a non-ground partner. Nothing else changes. |
| `Lifecycle.OnUpdate` | Assets/Scripts/Destroyable.cs:63-87 | An update fragments the object exactly when the depletion check holds, and then sets the counter to -1 and destroys it. A flagged live fragment gets exactly one new timer due 2500 to 5000 frames ahead, and no other update adds one. |
| `Lifecycle.OnTimers` | Assets/Scripts/Destroyable.cs:82-86 | Timer processing destroys a live object exactly when one of its timers is due in this frame, and changes nothing else. |
| `Lifecycle.OnEndOfFrame` | Assets/Scripts/Destroyable.cs:70 | At the end of a frame the object is out of the scene exactly when it was already, or it was asked to be destroyed. Nothing else changes. |
| `Lifecycle.HitsCountDown` | Assets/Scripts/Destroyable.cs:53-58 | Each bullet hit on a live object, whether a fragment or an original, lowers the counter by exactly one and does not fragment it. |
| `Lifecycle.EnduranceNeverRises` | Assets/Scripts/Destroyable.cs:53-71 | No sequence of events raises the counter. |
| `Lifecycle.NoExplosionOnceNegative` | Assets/Scripts/Destroyable.cs:63-71 | Once the counter is below zero (the -1 sentinel, or a count driven past zero), no event fragments the object. |
| `Lifecycle.AtMostOneExplosion` | Assets/Scripts/Destroyable.cs:63-71 | Over any sequence of events an object fragments at most once. |
| `Lifecycle.FragmentsNeverExplode` | Assets/Scripts/Destroyable.cs:64-66 | An object whose name contains `"_Piece"` never fragments, whatever hits it. |
| `Lifecycle.Countdown` | Assets/Scripts/Destroyable.cs:53-71 | For an original that is not a bullet, while the counter equals the bullet hits still to come, the object stays unexploded and in the scene. Once an update finds the counter at zero, it has fragmented exactly once and the counter is below zero. |
| `Lifecycle.ExactlyOneExplosion` | Assets/Scripts/Destroyable.cs:53-71 | Take an original with counter D whose name contains neither `"_Piece"` nor `"Bullet"`. If it meets exactly D bullet hits mixed with any other events, and then an update, it fragments exactly once over its whole life, whatever follows. |
| `Lifecycle.SkippedZeroNeverExplodes` | Assets/Scripts/Destroyable.cs:65 | A counter of 1 hit twice before an update goes past zero, and the object never fragments. |
| `Lifecycle.NoEarlyRemoval` | Assets/Scripts/Destroyable.cs:76-87 | A fragment that is not itself a projectile (its name lacks `"Bullet"`), whose timers are all due 2500 or more frames after a given frame, is not destroyed by events before then. |
| `Lifecycle.TimerPersists` | Assets/Scripts/Destroyable.cs:82-86 | A scheduled removal timer stays scheduled through any events. |
| `Lifecycle.RemovedByDeadline` | Assets/Scripts/Destroyable.cs:76-87 | A flagged fragment's first update schedules a timer 2500 to 5000 frames ahead. Whatever happens in between, the fragment is destroyed by that frame. |
| `GameDev.ImpulseVector` | Assets/Scripts/Destroyable.cs:109-113 | Each component of a fragment's random vector lies between `force / 2` (integer division) and `force * 2`. |
| `GameDev.DefaultImpulseRange` | Assets/Scripts/Destroyable.cs:109-113 | With the default force 5, every component lies in [2, 10]. |
| `GameDev.PieceStateShape` | Assets/Scripts/Destroyable.cs:99-125 | The state `PieceState` gives a fragment after one iteration, listed below. |
| `GameDev.ShapePiece` | Assets/Scripts/Destroyable.cs:101-123 | The statements of one iteration, applied to a fresh clone, leave it in exactly the state `PieceState` gives. |
| `GameDev.Destroyable.constructor` | Assets/Scripts/Destroyable.cs:18-23 | A new component has the configured counter, the auto-destroy flag off, no timers and no fragmentation yet. |
| `GameDev.Destroyable.SetAutoDestroy` | Assets/Scripts/Destroyable.cs:28 | The `AutoDestroy` setter changes the flag and nothing else. |
| `GameDev.Destroyable.Instantiate` | Assets/Scripts/Destroyable.cs:100 | A clone is a fresh object in the state `Engine.CloneOf` gives. Its fresh component copies the counter, with the flag off and no timers. |
| `GameDev.Destroyable.OnCollision` | Assets/Scripts/Destroyable.cs:38-58 | The component's new state is `Lifecycle.OnHit`, listed below. |
| `GameDev.Destroyable.Update` | Assets/Scripts/Destroyable.cs:63-87 | The component's new state is `Lifecycle.OnUpdate`, listed below. |
| `GameDev.Destroyable.FireTimers` | Assets/Scripts/Destroyable.cs:82-86 | A removal timer due in this frame destroys the object, unless it has already left the scene. |
| `GameDev.Destroyable.EndOfFrame` | Assets/Scripts/Destroyable.cs:70 | The component's state follows `Lifecycle.OnEndOfFrame`: a destroyed object leaves the scene and its handlers stop. |
| `GameDev.Destroyable.MakePiece` | Assets/Scripts/Destroyable.cs:99-125 | One loop iteration leaves a fresh clone in exactly the state `PieceState` gives, with the counter copied and the flag on. |
| `GameDev.Destroyable.ExplodePiece` | Assets/Scripts/Destroyable.cs:96-127 | The fragments, listed below. |
| `GameDev.ThreeHitsFragment` | Assets/Scripts/Destroyable.cs:18-70 | An original with the default counter 3 is replaced at its next update, after three bullet hits, by twelve half-scale fragments that have the piece names, counter 0 and the flag on. The original is destroyed with counter -1. |

`GameDev.PieceStateShape` states the fragment's state after one loop
iteration, as `GameDev.PieceState` gives it:

- named `name_Piece_(k+1)`, which contains `"_Piece"`;
- uniform local scale `scale`;
- a rigidbody: the clone's own if it had one, keeping its gravity setting,
  else a new one under gravity;
- the rigidbody is at rest, not kinematic, and has mass 1;
- the same random vector applied once as both impulse and torque, with
  each component in range;
- the descendants as `Engine.Strip` leaves them, so no active parented
  descendant has another name;
- not destroyed.

`GameDev.Destroyable.OnCollision` makes `Life()` equal to `Lifecycle.OnHit`:

- A partner named with `"Bullet"` lowers the counter by exactly 1, and any
  other partner leaves it unchanged.
- A bullet-named object that hits a non-`Ground` partner destroys itself.
  It zeroes the partner's velocity only if the partner has a rigidbody, and
  changes nothing else of the partner.
- Nothing happens once the object has left the scene.

`GameDev.Destroyable.Update` makes `Life()` equal to `Lifecycle.OnUpdate`:

- The object fragments exactly when the counter is 0 and its name lacks
  `"_Piece"`. It then returns the twelve fragments from its current state,
  with counter 0, sets the counter to -1 and destroys itself.
- A flagged fragment gets one more timer.

`GameDev.Destroyable.ExplodePiece` yields `max(number, 0)` fresh, pairwise
distinct fragments with pairwise distinct names. Fragment k is in state
`PieceState(k)` with the original's counter and the flag on. Nothing on the
original object changes.

## Left out

- `Instantiate`'s `"(Clone)"` name suffix is left out: a clone keeps its original's name, so a fragment is named `name_Piece_n` rather than `name(Clone)_Piece_n`. Unity's deep copy of components other than the rigidbody and the descendant names is also left out.
- `Engine.CloneOf` copies the descendant list as it stands, which matches `Instantiate` only for an intact template: a descendant already unparented or marked for destruction would not be cloned by Unity. Only originals, which are never stripped, are cloned here.
- Physics is not modelled. Impulses and torques are recorded on the rigidbody summary but not integrated into motion, and collisions are given as events rather than detected.
- Single-precision floats are modelled as exact reals. 0.5, 2 and 10 are exact in both, but rounding in `Random.Range` is not modelled.
- Random numbers are not generated. Each draw is a parameter in [0, 1] (`Numerics.Unit`), mapped linearly onto the requested range, and the engine's actual distribution is not modelled.
- UniRx plumbing (`OnCollisionEnterAsObservable`, `UpdateAsObservable`, `TimerFrame`, `AddTo`) is replaced by explicit handler methods: `OnCollision`, `Update`, `FireTimers` and `EndOfFrame`. The two collision subscriptions and the two update subscriptions run in the order they were subscribed. Disposal on destruction is the `removed` guard.
- `Start` is not modelled as a separate step: a component's handlers are active from its creation.
- The transform hierarchy is flattened into a list of descendant transforms. In Unity, destroying a differently named transform also destroys any descendants below it, including one that shares the fragment's name. The model does not capture this.
- The interleaving of different objects' handlers within a frame is left to the caller. `Lifecycle.Run` plays any order of one object's events.
- 32-bit wrap-around of `force * 2` and `i + 1` is not modelled. The component only ever runs with `force = 5` and 12 pieces.
- `Assets/Scripts/Player.cs` and `Assets/Scripts/Enemy.cs` are not part of this model. They are input mapping, timer-driven patrol and chase, and float line-of-sight tests over engine calls; they only produce the collisions and bullets consumed here.

=== FILE: destroyable.dfy ===
/** The destructible component: a durability counter that projectiles wear
    down, the projectile role of an object that is itself a bullet, the
    fragmentation of a depleted object into scaled, impulsed debris, and
    the self-removal of that debris. Each handler is proved against the
    matching step of the `Lifecycle` state machine; `ExplodePiece` is proved
    against `PieceState`, the state one loop iteration leaves a fragment in. */
module GameDev {
  import opened Names
  import opened Numerics
  import opened Engine
  import Lifecycle

  /** The arguments the depletion step passes to `ExplodePiece`: its defaults. */
  const DefaultNumber := 12
  const DefaultScale := 0.5
  const DefaultForce := 5

  /** `r` lies in the closed interval between `lo` and `hi`, in either order. */
  predicate Between(r: real, lo: real, hi: real)
  {
    if lo <= hi then lo <= r <= hi else hi <= r <= lo
  }

  /** The range each impulse component is drawn from: `force / 2` with
      C#'s integer division, up to `force * 2`. */
  function ImpulseLow(force: int): real
  {
    HalfTowardZero(force) as real
  }

  function ImpulseHigh(force: int): real
  {
    (force * 2) as real
  }

  predicate InImpulseRange(v: Vec3, force: int)
  {
    Between(v.x, ImpulseLow(force), ImpulseHigh(force)) &&
    Between(v.y, ImpulseLow(force), ImpulseHigh(force)) &&
    Between(v.z, ImpulseLow(force), ImpulseHigh(force))
  }

  /** The random vector a fragment is pushed and spun with: one
      `Random.Range(force / 2, force * 2)` per axis. */
  function ImpulseVector(force: int, d: Draw3): (v: Vec3)
    ensures InImpulseRange(v, force)
  {
    Vec3(Range(ImpulseLow(force), ImpulseHigh(force), d.x),
         Range(ImpulseLow(force), ImpulseHigh(force), d.y),
         Range(ImpulseLow(force), ImpulseHigh(force), d.z))
  }

  /** With the default force of 5, every component lies in [2, 10]: the
      lower bound is 5 / 2 truncated, not 2.5. */
  lemma DefaultImpulseRange(d: Draw3)
    ensures var v := ImpulseVector(DefaultForce, d);
      2.0 <= v.x <= 10.0 && 2.0 <= v.y <= 10.0 && 2.0 <= v.z <= 10.0
  {
  }

  /** The state iteration `k` of the fragmentation loop leaves its fragment
      in, cloned from an object in state `src`; `PieceStateShape` says what
      it is. */
  function PieceState(src: ObjState, k: nat, scale: real, force: int, draw: Draw3): ObjState
  {
    var name := PieceName(src.name, k);
    var v := ImpulseVector(force, draw);
    var b0 := if src.body.Some? then Settled(src.body.value) else DefaultBody;
    var b := b0.(isKinematic := false, mass := 1.0, impulses := b0.impulses + [v], torques := b0.torques + [v]);
    ObjState(name, Vec3(scale, scale, scale), Some(b), Strip(src.children, name), false, false)
  }

  /** A fragment is renamed with a numbered fragment suffix, uniformly
      scaled to `scale` (not relative to the original's scale), given a
      rigidbody when it had none (a clone's rigidbody keeps the original's
      settings but starts at rest), made dynamic with unit mass, pushed and
      spun once by the same random vector, and stripped of every active
      descendant with another name; it is in the scene and not asked to be
      destroyed. */
  lemma PieceStateShape(src: ObjState, k: nat, scale: real, force: int, draw: Draw3)
    ensures var p := PieceState(src, k, scale, force, draw);
      && p.name == PieceName(src.name, k) && Contains(p.name, FragmentMarker)
      && p.localScale == Vec3(scale, scale, scale)
      && p.body.Some? && !p.body.value.isKinematic && p.body.value.mass == 1.0
      && p.body.value.useGravity == (src.body.None? || src.body.value.useGravity)
      && p.body.value.velocity == Zero
      && p.body.value.impulses == [ImpulseVector(force, draw)] == p.body.value.torques
      && InImpulseRange(p.body.value.impulses[0], force)
      && p.children == Strip(src.children, p.name)
      && (forall j :: 0 <= j < |p.children| && p.children[j].active && p.children[j].parented ==>
            p.children[j].name == p.name)
      && !p.destroyRequested && !p.removed
  {
    PieceNameIsFragment(src.name, k);
  }

  /** `p` is the fragment made in iteration `k` from an object in state
      `src` whose counter stood at `endurance`: its object is in the state
      `PieceState` gives, the counter was copied with the object, and the
      auto-destroy flag is on with no timer scheduled yet. */
  ghost predicate IsPieceOf(p: Destroyable, src: ObjState, endurance: int, k: nat,
                            scale: real, force: int, draw: Draw3)
    reads p, p.obj
  {
    p.obj.State() == PieceState(src, k, scale, force, draw) &&
    p.Life() == Lifecycle.Life(p.obj.name, endurance, true, false, false, [], 0)
  }

  class Destroyable {
    /** The game object the component is attached to. */
    const obj: GameObject
    /** Durability; a serialized field, so it is copied when the object is cloned. */
    var endurance: int
    /** Set on fragments only; not serialized, so a clone starts without it. */
    var autoDestroy: bool
    /** The frames at which the removal timers scheduled so far are due. */
    var removalTimers: seq<int>
    /** How many times the fragmentation routine has run on this object. */
    ghost var explodeCalls: nat

    ghost function Life(): Lifecycle.Life
      reads this, obj
    {
      Lifecycle.Life(obj.name, endurance, autoDestroy, obj.destroyRequested, obj.removed,
                     removalTimers, explodeCalls)
    }

    /** The component attached to `obj`, with durability `endurance` as
        configured (`Lifecycle.DefaultEndurance` unless changed). */
    constructor (obj: GameObject, endurance: int)
      ensures this.obj == obj
      ensures Life() == Lifecycle.Life(obj.name, endurance, false, obj.destroyRequested, obj.removed, [], 0)
    {
      this.obj := obj;
      this.endurance := endurance;
      autoDestroy := false;
      removalTimers := [];
      explodeCalls := 0;
    }

    /** The `AutoDestroy` property's setter. */
    method SetAutoDestroy(value: bool)
      modifies this
      ensures Life() == old(Life()).(autoDestroy := value)
    {
      autoDestroy := value;
    }

    /** `Instantiate(gameObject)`: a new object copied from this one, carrying
        a new component with the current durability and nothing else of this
        component's state. */
    method Instantiate() returns (c: Destroyable)
      ensures fresh(c) && fresh(c.obj)
      ensures c.obj.State() == CloneOf(obj.State())
      ensures c.Life() == Lifecycle.Initial(obj.name, endurance)
    {
      var o := new GameObject.Copy(obj);
      c := new Destroyable(o, endurance);
    }

    /** A collision with `other`. As a projectile (own name containing
        "Bullet"), the object stops a partner that is not the ground, when
        the partner has a rigidbody, and destroys itself; and whatever it
        is, a partner named with "Bullet" costs it one point of durability.
        The partner's own component, if any, is not touched. */
    method OnCollision(other: GameObject)
      requires other != obj
      modifies this, obj, other
      ensures Life() == Lifecycle.OnHit(old(Life()), old(other.name))
      ensures obj.State() == old(obj.State()).(destroyRequested := obj.destroyRequested)
      ensures other.State() ==
        if !old(obj.removed) && Lifecycle.ConsumedBy(old(Life()), old(other.name)) && old(other.body).Some?
        then old(other.State()).(body := Some(old(other.body).value.(velocity := Zero)))
        else old(other.State())
    {
      if !obj.removed {
        if Contains(obj.name, ProjectileMarker) && !Contains(other.name, GroundMarker) {
          if other.body.Some? {
            other.body := Some(other.body.value.(velocity := Zero));
          }
          obj.Destroy();
        }
        if Contains(other.name, ProjectileMarker) {
          endurance := endurance - 1;
        }
      }
    }

    /** One frame update at frame `frame`. The depletion check (counter
        exactly zero, not a fragment) fragments the object with the default
        arguments, sets the counter to -1 and destroys the object; the
        auto-destroy check (flag set, a fragment) schedules a removal timer
        `RemovalDelay(t)` frames ahead. `draws` are the random vectors for
        the fragments. */
    method Update(frame: nat, t: Unit, draws: seq<Draw3>) returns (pieces: seq<Destroyable>)
      requires |draws| == DefaultNumber
      modifies this, obj
      ensures Life() == Lifecycle.OnUpdate(old(Life()), frame, t)
      ensures obj.State() == old(obj.State()).(destroyRequested := obj.destroyRequested)
      ensures |pieces| == if Lifecycle.Depletes(old(Life())) then DefaultNumber else 0
      ensures forall k :: 0 <= k < |pieces| ==> fresh(pieces[k]) && fresh(pieces[k].obj)
      ensures forall k :: 0 <= k < |pieces| ==>
        IsPieceOf(pieces[k], old(obj.State()), 0, k, DefaultScale, DefaultForce, draws[k])
      ensures forall j, k :: 0 <= j < k < |pieces| ==>
        pieces[j] != pieces[k] && pieces[j].obj != pieces[k].obj && pieces[j].obj.name != pieces[k].obj.name
    {
      pieces := [];
      if !obj.removed && endurance == 0 && !Contains(obj.name, FragmentMarker) {
        pieces := ExplodePiece(DefaultNumber, DefaultScale, DefaultForce, draws);
        explodeCalls := explodeCalls + 1;
        endurance := -1;
        obj.Destroy();
      }
      if !obj.removed && autoDestroy && Contains(obj.name, FragmentMarker) {
        removalTimers := removalTimers + [frame + RemovalDelay(t)];
      }
    }

    /** Frame `frame` has come: a removal timer due now destroys the object. */
    method FireTimers(frame: nat)
      modifies obj
      ensures Life() == Lifecycle.OnTimers(old(Life()), frame)
      ensures obj.State() == old(obj.State()).(destroyRequested := obj.destroyRequested)
    {
      if !obj.removed && frame in removalTimers {
        obj.Destroy();
      }
    }

    /** The engine's end of frame for this object. */
    method EndOfFrame()
      modifies obj
      ensures Life() == Lifecycle.OnEndOfFrame(old(Life()))
      ensures obj.State() == old(obj.State()).(removed := obj.removed)
    {
      obj.EndOfFrame();
    }

    /** One iteration of the fragmentation loop: the clone is renamed,
        rescaled, given a rigidbody if it has none, made dynamic with unit
        mass, pushed and spun by the same random vector, stripped of its
        differently named descendants and flagged for auto-destruction. */
    method MakePiece(k: nat, scale: real, force: int, draw: Draw3) returns (piece: Destroyable)
      ensures fresh(piece) && fresh(piece.obj)
      ensures IsPieceOf(piece, obj.State(), endurance, k, scale, force, draw)
    {
      piece := Instantiate();
      ShapePiece(piece.obj, obj.State(), k, scale, force, draw);
      piece.SetAutoDestroy(true);
    }

    /** `explodePiece(number, scale, force)`: clones the object `number`
        times (none when `number` is not positive), each clone built step by
        step into the fragment `PieceState` describes, with `draws[k]` the
        random vector of fragment `k`. It changes nothing on this object. */
    method ExplodePiece(number: int, scale: real, force: int, draws: seq<Draw3>)
      returns (pieces: seq<Destroyable>)
      requires number <= |draws|
      ensures |pieces| == if number < 0 then 0 else number
      ensures forall k :: 0 <= k < |pieces| ==> fresh(pieces[k]) && fresh(pieces[k].obj)
      ensures forall k :: 0 <= k < |pieces| ==>
        IsPieceOf(pieces[k], obj.State(), endurance, k, scale, force, draws[k])
      ensures forall j, k :: 0 <= j < k < |pieces| ==>
        pieces[j] != pieces[k] && pieces[j].obj != pieces[k].obj && pieces[j].obj.name != pieces[k].obj.name
    {
      ghost var src, e := obj.State(), endurance;
      pieces := [];
      var i := 0;
      while i < number
        invariant 0 <= i && (number < 0 ==> i == 0) && (0 <= number ==> i <= number)
        invariant |pieces| == i
        invariant obj.State() == src && endurance == e
        invariant forall k :: 0 <= k < i ==> fresh(pieces[k]) && fresh(pieces[k].obj)
        invariant forall k :: 0 <= k < i ==> IsPieceOf(pieces[k], src, e, k, scale, force, draws[k])
        invariant forall j, k :: 0 <= j < k < i ==> pieces[j] != pieces[k] && pieces[j].obj != pieces[k].obj
      {
        var piece := MakePiece(i, scale, force, draws[i]);
        pieces := pieces + [piece];
        i := i + 1;
      }
      forall j, k | 0 <= j < k < |pieces|
        ensures pieces[j].obj.name != pieces[k].obj.name
      {
        PieceNamesDistinct(obj.name, j, k);
      }
    }
  }
  /** The statements of one iteration of the fragmentation loop that act on
      the clone `o` of an object in state `src`, written step by step as the
      loop body performs them. */
  method ShapePiece(o: GameObject, ghost src: ObjState, k: nat, scale: real, force: int, draw: Draw3)
    requires o.State() == CloneOf(src)
    modifies o
    ensures o.State() == PieceState(src, k, scale, force, draw)
  {
    o.name := o.name + "_Piece_" + Decimal(k + 1);
    o.localScale := Vec3(scale, scale, scale);
    if o.body.None? {
      o.body := Some(DefaultBody);
    }
    o.body := Some(o.body.value.(isKinematic := false));
    o.body := Some(o.body.value.(mass := 1.0));
    var impulse := ImpulseVector(force, draw);
    o.body := Some(o.body.value.(impulses := o.body.value.impulses + [impulse]));
    o.body := Some(o.body.value.(torques := o.body.value.torques + [impulse]));
    o.StripChildren();
  }

  /** An object placed with the default durability and hit by three
      projectiles is, at its next update, replaced by twelve fragments of
      half scale, each with a distinct fragment name, and is itself
      destroyed with its counter invalidated. */
  method ThreeHitsFragment(name: string, bulletName: string, frame: nat, t: Unit, draws: seq<Draw3>)
    returns (box: Destroyable, pieces: seq<Destroyable>)
    requires !Contains(name, FragmentMarker) && Contains(bulletName, ProjectileMarker)
    requires |draws| == DefaultNumber
    ensures box.endurance == -1 && box.obj.destroyRequested && box.explodeCalls == 1
    ensures |pieces| == DefaultNumber
    ensures forall k :: 0 <= k < |pieces| ==>
      pieces[k].obj.name == PieceName(name, k) && pieces[k].obj.localScale == Vec3(0.5, 0.5, 0.5) &&
      pieces[k].endurance == 0 && pieces[k].autoDestroy
  {
    var o := new GameObject(name, Vec3(1.0, 1.0, 1.0), None, []);
    box := new Destroyable(o, Lifecycle.DefaultEndurance);
    var bullet := new GameObject(bulletName, Vec3(1.0, 1.0, 1.0), Some(DefaultBody), []);
    box.OnCollision(bullet);
    box.OnCollision(bullet);
    box.OnCollision(bullet);
    assert box.endurance == 0 && !box.obj.removed && box.obj.name == name;
    pieces := box.Update(frame, t, draws);
  }
}

=== FILE: engine.dfy ===
/** The part of the game engine the destructible component works through:
    game objects with a name, a local scale, an optional rigidbody and their
    descendant transforms, and deferred destruction (an object asked to be
    destroyed stays in the scene until the end of the current frame). */
module Engine {

  datatype Option<T> = None | Some(value: T)

  datatype Vec3 = Vec3(x: real, y: real, z: real)

  const Zero := Vec3(0.0, 0.0, 0.0)

  /** What the component reads and writes of a `Rigidbody`: its velocity, its
      kinematic flag, its mass, whether gravity acts on it (standing for the
      serialized settings the component leaves alone), and the impulses
      (`AddForce` with `ForceMode.Impulse`) and angular impulses (`AddTorque`)
      applied to it, in order. Integrating them into motion is the physics
      engine's job. */
  datatype Body = Body(velocity: Vec3, isKinematic: bool, mass: real, useGravity: bool,
                       impulses: seq<Vec3>, torques: seq<Vec3>)

  /** The rigidbody `AddComponent<Rigidbody>()` attaches: at rest, dynamic,
      of unit mass, under gravity, nothing applied yet. */
  const DefaultBody := Body(Zero, false, 1.0, true, [], [])

  /** The rigidbody a clone starts with: the template's serialized settings,
      but at rest and with nothing applied, since velocity and pending forces
      are runtime state `Instantiate` does not copy. */
  function Settled(b: Body): Body
  {
    b.(velocity := Zero, impulses := [], torques := [])
  }

  /** A descendant transform of a game object: its name, whether its game
      object is active in the hierarchy, whether it is still parented under
      the object, and whether it has been asked to be destroyed. */
  datatype Child = Child(name: string, active: bool, parented: bool, destroyRequested: bool)

  /** The value of a game object's fields at one moment. */
  datatype ObjState = ObjState(name: string, localScale: Vec3, body: Option<Body>,
                               children: seq<Child>, destroyRequested: bool, removed: bool)

  /** The state of the object `Instantiate` makes from an object in state
      `s`: the same name, scale, rigidbody settings and descendants, in the
      scene and not asked to be destroyed. The descendants are copied as
      listed, which matches `Instantiate` only for an intact template (every
      descendant parented and live); only originals, never stripped, are
      cloned. */
  function CloneOf(s: ObjState): ObjState
  {
    s.(body := if s.body.Some? then Some(Settled(s.body.value)) else None,
       destroyRequested := false, removed := false)
  }

  /** One descendant after the stripping pass of a fragment named `keep`;
      `GetComponentsInChildren<Transform>()` lists active objects only. */
  function StripOne(c: Child, keep: string): Child
  {
    if c.active && c.name != keep then c.(parented := false, destroyRequested := true) else c
  }

  /** The descendants of a fragment named `keep` after the stripping pass: an
      active transform with another name is unparented and destroyed; one
      that shares the fragment's name, or whose object is inactive, is left
      as it was; so no active transform with another name stays parented. */
  function Strip(cs: seq<Child>, keep: string): (r: seq<Child>)
    ensures |r| == |cs|
    ensures forall k :: 0 <= k < |cs| ==> r[k].name == cs[k].name && r[k].active == cs[k].active
    ensures forall k :: 0 <= k < |cs| && (cs[k].name == keep || !cs[k].active) ==> r[k] == cs[k]
    ensures forall k :: 0 <= k < |cs| && cs[k].active && cs[k].name != keep ==>
      !r[k].parented && r[k].destroyRequested
    ensures forall k :: 0 <= k < |r| && r[k].active && r[k].parented ==> r[k].name == keep
  {
    if cs == [] then [] else [StripOne(cs[0], keep)] + Strip(cs[1..], keep)
  }

  class GameObject {
    var name: string
    var localScale: Vec3
    var body: Option<Body>
    /** Every transform below this object, flattened. */
    var children: seq<Child>
    /** `Destroy` has been called on the object. */
    var destroyRequested: bool
    /** The engine has taken the object out of the scene. */
    var removed: bool

    ghost function State(): ObjState
      reads this
    {
      ObjState(name, localScale, body, children, destroyRequested, removed)
    }

    /** An object placed in the scene. */
    constructor (name: string, localScale: Vec3, body: Option<Body>, children: seq<Child>)
      ensures State() == ObjState(name, localScale, body, children, false, false)
    {
      this.name := name;
      this.localScale := localScale;
      this.body := body;
      this.children := children;
      destroyRequested := false;
      removed := false;
    }

    /** `Instantiate(template)`: a new object in the scene with copies of the
        template's name, scale, rigidbody settings and descendants. */
    constructor Copy(template: GameObject)
      ensures State() == CloneOf(template.State())
    {
      name := template.name;
      localScale := template.localScale;
      body := if template.body.Some? then Some(Settled(template.body.value)) else None;
      children := template.children;
      destroyRequested := false;
      removed := false;
    }

    /** `Destroy(gameObject)`: the request takes effect at the end of the frame. */
    method Destroy()
      modifies this
      ensures State() == old(State()).(destroyRequested := true)
    {
      destroyRequested := true;
    }

    /** The engine's end of frame: an object asked to be destroyed leaves the scene. */
    method EndOfFrame()
      modifies this
      ensures State() == old(State()).(removed := old(removed || destroyRequested))
    {
      if destroyRequested {
        removed := true;
      }
    }

    /** The pass over `GetComponentsInChildren<Transform>()` that unparents
        and destroys every active transform whose name differs from the
        object's own. The object's own transform is in that list too, and is skipped
        by the same name test, so the object itself is never destroyed. */
    method StripChildren()
      modifies this
      ensures children == Strip(old(children), name)
      ensures State() == old(State()).(children := children)
    {
      var k := 0;
      ghost var before := children;
      while k < |children|
        invariant 0 <= k <= |children| == |before|
        invariant forall j :: 0 <= j < k ==> children[j] == StripOne(before[j], name)
        invariant forall j :: k <= j < |children| ==> children[j] == before[j]
        invariant State() == old(State()).(children := children)
      {
        if children[k].active && name != children[k].name {
          children := children[k := children[k].(parented := false, destroyRequested := true)];
        }
        k := k + 1;
      }
      var r := Strip(before, name);
      assert forall j :: 0 <= j < |r| ==> r[j] == children[j];
    }
  }
}

=== FILE: lifecycle.dfy ===
/** The life of one destructible object as a state machine over its events:
    collisions, per-frame updates, due removal timers and the engine's end of
    frame. Each function gives the state one handler of the component leaves
    behind; `Run` plays a sequence of events. The lemmas state what the
    component guarantees over whole runs: hits count down the durability,
    fragmentation happens at most once and exactly once after the last
    depleting hit, fragments never fragment, and a fragment that is not
    itself a projectile (its name lacks "Bullet") is destroyed no sooner
    than 2500 and no later than 5000 frames after its first update. */
module Lifecycle {
  import opened Names
  import opened Numerics

  /** The durability an object starts with unless configured otherwise. */
  const DefaultEndurance := 3

  /** The component's state: the object's name, the durability counter, the
      auto-destroy flag, whether `Destroy` was called and whether the object
      has left the scene, the frames its removal timers are due, and how
      many times it has run the fragmentation routine. */
  datatype Life = Life(name: string, endurance: int, autoDestroy: bool,
                       destroyRequested: bool, removed: bool,
                       timers: seq<int>, explodeCalls: nat)

  /** A freshly placed object. */
  function Initial(name: string, endurance: int): Life
  {
    Life(name, endurance, false, false, false, [], 0)
  }

  /** The object is itself a projectile, and the partner is not the ground. */
  predicate ConsumedBy(s: Life, partner: string)
  {
    Contains(s.name, ProjectileMarker) && !Contains(partner, GroundMarker)
  }

  /** A collision with an object named `partner`: a projectile consumes
      itself on anything but the ground, and every object loses one point
      of durability to a projectile. Nothing happens once it has left the scene. */
  function OnHit(s: Life, partner: string): (r: Life)
    ensures r.(endurance := s.endurance, destroyRequested := s.destroyRequested) == s
    ensures r.endurance == s.endurance - 1 <==> !s.removed && Contains(partner, ProjectileMarker)
    ensures s.endurance - 1 <= r.endurance <= s.endurance
    ensures r.destroyRequested <==> s.destroyRequested || (!s.removed && ConsumedBy(s, partner))
  {
    if s.removed then s
    else
      var s1 := if ConsumedBy(s, partner) then s.(destroyRequested := true) else s;
      if Contains(partner, ProjectileMarker) then s1.(endurance := s1.endurance - 1) else s1
  }

  /** The depletion check: durability exactly zero, and not a fragment. */
  predicate Depletes(s: Life)
  {
    !s.removed && s.endurance == 0 && !Contains(s.name, FragmentMarker)
  }

  /** The auto-destroy check: the flag is set on a fragment. */
  predicate SchedulesRemoval(s: Life)
  {
    !s.removed && s.autoDestroy && Contains(s.name, FragmentMarker)
  }

  /** A frame update at frame `frame`, with `t` the draw for a removal
      timer's delay: the depletion check fragments the object, invalidates
      the counter and destroys the object; then the auto-destroy check
      schedules one more removal timer. */
  function OnUpdate(s: Life, frame: nat, t: Unit): (r: Life)
    ensures r.name == s.name && r.autoDestroy == s.autoDestroy && r.removed == s.removed
    ensures r.explodeCalls == s.explodeCalls + 1 <==> Depletes(s)
    ensures s.explodeCalls <= r.explodeCalls <= s.explodeCalls + 1
    ensures Depletes(s) ==> r.endurance == -1 && r.destroyRequested
    ensures !Depletes(s) ==> r.endurance == s.endurance && r.destroyRequested == s.destroyRequested
    ensures SchedulesRemoval(s) ==>
      && |r.timers| == |s.timers| + 1 && r.timers[..|s.timers|] == s.timers
      && frame + MinRemovalFrames <= r.timers[|s.timers|] <= frame + MaxRemovalFrames
    ensures !SchedulesRemoval(s) ==> r.timers == s.timers
  {
    var s1 := if Depletes(s)
              then s.(explodeCalls := s.explodeCalls + 1, endurance := -1, destroyRequested := true)
              else s;
    if SchedulesRemoval(s1) then s1.(timers := s1.timers + [frame + RemovalDelay(t)]) else s1
  }

  /** Frame `frame` has come: a removal timer due now destroys the object. */
  function OnTimers(s: Life, frame: nat): (r: Life)
    ensures r.(destroyRequested := s.destroyRequested) == s
    ensures r.destroyRequested <==> s.destroyRequested || (!s.removed && frame in s.timers)
  {
    if !s.removed && frame in s.timers then s.(destroyRequested := true) else s
  }

  /** The end of a frame: an object asked to be destroyed leaves the scene,
      taking its subscriptions and timers with it. */
  function OnEndOfFrame(s: Life): (r: Life)
    ensures r.(removed := s.removed) == s
    ensures r.removed <==> s.removed || s.destroyRequested
  {
    if s.destroyRequested then s.(removed := true) else s
  }

  datatype Event =
    | Hit(partner: string)
    | Tick(frame: nat, draw: Unit)
    | TimersDue(frame: nat)
    | EndOfFrame

  function Step(s: Life, e: Event): Life
  {
    match e
    case Hit(p) => OnHit(s, p)
    case Tick(f, t) => OnUpdate(s, f, t)
    case TimersDue(f) => OnTimers(s, f)
    case EndOfFrame => OnEndOfFrame(s)
  }

  function Run(s: Life, evs: seq<Event>): Life
    decreases |evs|
  {
    if evs == [] then s else Run(Step(s, evs[0]), evs[1..])
  }

  /** How many of the events are collisions with a projectile. */
  function BulletHits(evs: seq<Event>): nat
    decreases |evs|
  {
    if evs == [] then 0
    else (if evs[0].Hit? && Contains(evs[0].partner, ProjectileMarker) then 1 else 0) + BulletHits(evs[1..])
  }

  /** `n` collisions with the same partner. */
  function Hits(partner: string, n: nat): seq<Event>
  {
    if n == 0 then [] else [Hit(partner)] + Hits(partner, n - 1)
  }

  /** Playing two sequences of events one after the other. */
  lemma {:induction false} RunAppend(s: Life, a: seq<Event>, b: seq<Event>)
    ensures Run(s, a + b) == Run(Run(s, a), b)
    decreases |a|
  {
    if a != [] {
      assert (a + b)[0] == a[0] && (a + b)[1..] == a[1..] + b;
      RunAppend(Step(s, a[0]), a[1..], b);
      assert Run(s, a + b) == Run(Step(s, a[0]), a[1..] + b);
    } else {
      assert a + b == b;
    }
  }

  /** No event changes the object's name, lets it back into the scene, or
      takes back a call to `Destroy`. */
  lemma {:induction false} RunKeeps(s: Life, evs: seq<Event>)
    ensures Run(s, evs).name == s.name
    ensures s.removed ==> Run(s, evs).removed
    ensures s.destroyRequested ==> Run(s, evs).destroyRequested
    ensures (s.removed ==> s.destroyRequested) ==> (Run(s, evs).removed ==> Run(s, evs).destroyRequested)
    decreases |evs|
  {
    if evs != [] {
      RunKeeps(Step(s, evs[0]), evs[1..]);
    }
  }

  /** Each collision with a projectile costs a live object exactly one point
      of durability, fragment or not, and changes nothing else it counts. */
  lemma {:induction false} HitsCountDown(s: Life, partner: string, n: nat)
    requires !s.removed && Contains(partner, ProjectileMarker)
    ensures Run(s, Hits(partner, n)).endurance == s.endurance - n
    ensures Run(s, Hits(partner, n)).name == s.name
    ensures !Run(s, Hits(partner, n)).removed
    ensures Run(s, Hits(partner, n)).explodeCalls == s.explodeCalls
    decreases n
  {
    if n > 0 {
      var evs := Hits(partner, n);
      assert evs[0] == Hit(partner) && evs[1..] == Hits(partner, n - 1);
      HitsCountDown(OnHit(s, partner), partner, n - 1);
    }
  }

  /** Durability never goes up. */
  lemma {:induction false} EnduranceNeverRises(s: Life, evs: seq<Event>)
    ensures Run(s, evs).endurance <= s.endurance
    decreases |evs|
  {
    if evs != [] {
      EnduranceNeverRises(Step(s, evs[0]), evs[1..]);
    }
  }

  /** Once the counter is below zero, as the fragmentation step leaves it,
      the object never fragments again. */
  lemma {:induction false} NoExplosionOnceNegative(s: Life, evs: seq<Event>)
    requires s.endurance < 0
    ensures Run(s, evs).explodeCalls == s.explodeCalls
    decreases |evs|
  {
    if evs != [] {
      EnduranceNeverRises(s, [evs[0]]);
      assert Run(s, [evs[0]]) == Step(s, evs[0]);
      NoExplosionOnceNegative(Step(s, evs[0]), evs[1..]);
    }
  }

  /** Whatever happens to it, an object fragments at most once. */
  lemma {:induction false} AtMostOneExplosion(s: Life, evs: seq<Event>)
    ensures Run(s, evs).explodeCalls <= s.explodeCalls + 1
    decreases |evs|
  {
    if evs != [] {
      var s1 := Step(s, evs[0]);
      if s1.explodeCalls == s.explodeCalls {
        AtMostOneExplosion(s1, evs[1..]);
      } else {
        assert s1.endurance == -1;
        NoExplosionOnceNegative(s1, evs[1..]);
      }
    }
  }

  /** A fragment never fragments, whatever hits it. */
  lemma {:induction false} FragmentsNeverExplode(s: Life, evs: seq<Event>)
    requires Contains(s.name, FragmentMarker)
    ensures Run(s, evs).explodeCalls == s.explodeCalls
    decreases |evs|
  {
    if evs != [] {
      FragmentsNeverExplode(Step(s, evs[0]), evs[1..]);
    }
  }

  /** The countdown of an original that is not a projectile, whose counter
      equals the projectile hits still to come: until an update finds the
      counter at zero it stays in the scene, unexploded, with no timer, and
      the counter keeps matching the hits to come; once that update has
      come, it has fragmented once and the counter is below zero. */
  lemma {:induction false} Countdown(s: Life, evs: seq<Event>)
    requires !Contains(s.name, FragmentMarker) && !Contains(s.name, ProjectileMarker)
    requires !s.destroyRequested && !s.removed && s.timers == []
    requires s.explodeCalls == 0 && s.endurance == BulletHits(evs)
    ensures var r := Run(s, evs);
      || (r.explodeCalls == 0 && r.endurance == 0 && !r.destroyRequested && !r.removed)
      || (r.explodeCalls == 1 && r.endurance < 0)
    decreases |evs|
  {
    if evs != [] {
      var s1 := Step(s, evs[0]);
      if s1.explodeCalls == 1 {
        NoExplosionOnceNegative(s1, evs[1..]);
        EnduranceNeverRises(s1, evs[1..]);
      } else {
        Countdown(s1, evs[1..]);
      }
    }
  }

  /** An original placed with durability `d` that is neither a fragment nor
      a projectile, and that meets exactly `d` projectile hits mixed with
      any other collisions, updates, timer checks and frame ends, fragments
      exactly once over its whole life once an update follows, whatever
      comes after. */
  lemma ExactlyOneExplosion(name: string, d: nat, pre: seq<Event>, frame: nat, t: Unit, rest: seq<Event>)
    requires !Contains(name, FragmentMarker) && !Contains(name, ProjectileMarker)
    requires BulletHits(pre) == d
    ensures Run(Initial(name, d), pre + [Tick(frame, t)] + rest).explodeCalls == 1
  {
    var s0 := Initial(name, d);
    RunAppend(s0, pre + [Tick(frame, t)], rest);
    RunAppend(s0, pre, [Tick(frame, t)]);
    Countdown(s0, pre);
    RunKeeps(s0, pre);
    var s1 := Run(s0, pre);
    var s2 := Run(s1, [Tick(frame, t)]);
    assert s2 == OnUpdate(s1, frame, t);
    NoExplosionOnceNegative(s2, rest);
  }

  /** Two projectile hits with no update between them take a counter of 1
      past zero, and the object then never fragments. */
  lemma SkippedZeroNeverExplodes(name: string, partner: string, rest: seq<Event>)
    requires Contains(partner, ProjectileMarker)
    ensures Run(Initial(name, 1), Hits(partner, 2) + rest).explodeCalls == 0
  {
    var s0 := Initial(name, 1);
    RunAppend(s0, Hits(partner, 2), rest);
    HitsCountDown(s0, partner, 2);
    NoExplosionOnceNegative(Run(s0, Hits(partner, 2)), rest);
  }

  /** Every event frame is at least `first`, and every timer check comes
      before `first` plus the shortest removal delay. */
  predicate EarlyFrames(evs: seq<Event>, first: nat)
  {
    forall k :: 0 <= k < |evs| ==>
      (evs[k].Tick? ==> first <= evs[k].frame) &&
      (evs[k].TimersDue? ==> evs[k].frame < first + MinRemovalFrames)
  }

  /** A fragment whose timers are all due at least 2500 frames after `first`
      is not removed by any events before then: no timer can fire, it does
      not fragment, and (not being a projectile) no collision consumes it. */
  lemma {:induction false} NoEarlyRemoval(s: Life, evs: seq<Event>, first: nat)
    requires !s.destroyRequested && !s.removed
    requires Contains(s.name, FragmentMarker) && !Contains(s.name, ProjectileMarker)
    requires forall k :: 0 <= k < |s.timers| ==> first + MinRemovalFrames <= s.timers[k]
    requires EarlyFrames(evs, first)
    ensures !Run(s, evs).destroyRequested && !Run(s, evs).removed
    decreases |evs|
  {
    if evs != [] {
      var s1 := Step(s, evs[0]);
      assert EarlyFrames(evs[1..], first) by {
        forall k | 0 <= k < |evs| - 1
          ensures (evs[1..][k].Tick? ==> first <= evs[1..][k].frame) &&
                  (evs[1..][k].TimersDue? ==> evs[1..][k].frame < first + MinRemovalFrames)
        {
          assert evs[1..][k] == evs[k + 1];
        }
      }
      match evs[0]
      case TimersDue(f) =>
        assert f < first + MinRemovalFrames;
        NoEarlyRemoval(s1, evs[1..], first);
      case Tick(f, t) =>
        assert first <= evs[0].frame;
        NoEarlyRemoval(s1, evs[1..], first);
      case Hit(p) =>
        NoEarlyRemoval(s1, evs[1..], first);
      case EndOfFrame =>
        NoEarlyRemoval(s1, evs[1..], first);
    }
  }

  /** A removal timer, once scheduled, stays scheduled. */
  lemma {:induction false} TimerPersists(s: Life, evs: seq<Event>, due: int)
    requires due in s.timers
    ensures due in Run(s, evs).timers
    decreases |evs|
  {
    if evs != [] {
      TimerPersists(Step(s, evs[0]), evs[1..], due);
    }
  }

  /** The first update of a live fragment with the auto-destroy flag set
      schedules a timer due between 2500 and 5000 frames later; whatever
      happens in between, the object has been destroyed once that frame has
      come. */
  lemma RemovedByDeadline(s: Life, first: nat, t: Unit, mid: seq<Event>)
    requires SchedulesRemoval(s)
    ensures first + MinRemovalFrames <= first + RemovalDelay(t) <= first + MaxRemovalFrames
    ensures Run(s, [Tick(first, t)] + mid + [TimersDue(first + RemovalDelay(t))]).destroyRequested
  {
    var due := first + RemovalDelay(t);
    var s1 := Step(s, Tick(first, t));
    assert due in s1.timers;
    RunAppend(s, [Tick(first, t)] + mid, [TimersDue(due)]);
    RunAppend(s, [Tick(first, t)], mid);
    assert Run(s, [Tick(first, t)]) == s1;
    var s2 := Run(s1, mid);
    TimerPersists(s1, mid, due);
    RunKeeps(s1, mid);
    assert Run(s2, [TimersDue(due)]) == OnTimers(s2, due);
  }
}

=== FILE: names.dfy ===
/** The naming conventions the destructible component classifies objects by:
    ordinal substring search (C#'s `string.Contains`), the decimal rendering
    of a piece number, and the names given to fragments. */
module Names {

  /** A projectile is any object whose name contains this. */
  const ProjectileMarker := "Bullet"
  /** A projectile hitting an object whose name contains this is not consumed. */
  const GroundMarker := "Ground"
  /** Every fragment's name contains this; such objects never fragment again. */
  const FragmentMarker := "_Piece"

  /** `t` occurs in `s` starting at index `i`. */
  ghost predicate OccursAt(s: string, t: string, i: int)
  {
    0 <= i && i + |t| <= |s| && s[i..i + |t|] == t
  }

  /** An occurrence in `s[1..]` is an occurrence in `s` one index later. */
  lemma OccursInTail(s: string, t: string)
    requires |s| > 0
    ensures forall i :: 0 <= i ==> (OccursAt(s[1..], t, i) <==> OccursAt(s, t, i + 1))
  {
  }

  /** Ordinal substring test, as `string.Contains` performs it. */
  function Contains(s: string, t: string): (b: bool)
    ensures b <==> exists i :: OccursAt(s, t, i)
    decreases |s|
  {
    if |s| < |t| then false
    else if s[..|t|] == t then assert OccursAt(s, t, 0); true
    else
      OccursInTail(s, t);
      assert !OccursAt(s, t, 0);
      assert forall i :: OccursAt(s, t, i) ==> OccursAt(s[1..], t, i - 1);
      Contains(s[1..], t)
  }

  /** Any string that has `t` between two other strings contains `t`. */
  lemma ContainsInfix(a: string, t: string, b: string)
    ensures Contains(a + t + b, t)
  {
    var s := a + t + b;
    assert s[|a|..|a| + |t|] == t;
    assert OccursAt(s, t, |a|);
  }

  /** The character of a decimal digit. */
  function DigitChar(d: nat): (c: char)
    requires d < 10
    ensures '0' <= c <= '9' && c as int - '0' as int == d
  {
    (48 + d) as char
  }

  /** The number a string of decimal digits spells, most significant digit
      first. */
  function DigitsValue(s: string): int
  {
    if s == [] then 0
    else DigitsValue(s[..|s| - 1]) * 10 + (s[|s| - 1] as int - '0' as int)
  }

  /** The decimal rendering of a natural number, as C# string interpolation
      writes an `int` that is not negative: digits only, no sign. */
  function Decimal(n: nat): (s: string)
    ensures 1 <= |s|
    ensures |s| == 1 <==> n < 10
    ensures forall i :: 0 <= i < |s| ==> '0' <= s[i] <= '9'
    decreases n
  {
    if n < 10 then [DigitChar(n)] else Decimal(n / 10) + [DigitChar(n % 10)]
  }

  /** The digits `Decimal` writes spell `n`, with no leading zero. */
  lemma {:induction false} DecimalValue(n: nat)
    ensures DigitsValue(Decimal(n)) == n
    ensures n > 0 ==> Decimal(n)[0] != '0'
    decreases n
  {
    var s := Decimal(n);
    if n < 10 {
      assert s[..0] == [];
    } else {
      DecimalValue(n / 10);
      assert s == Decimal(n / 10) + [DigitChar(n % 10)];
      assert s[..|s| - 1] == Decimal(n / 10);
    }
  }

  /** Different numbers are rendered differently. */
  lemma {:induction false} DecimalInjective(a: nat, b: nat)
    requires Decimal(a) == Decimal(b)
    ensures a == b
    decreases a
  {
    if a < 10 {
      assert Decimal(a)[0] == DigitChar(a) && Decimal(b)[0] == DigitChar(b);
    } else {
      var da, db := Decimal(a), Decimal(b);
      assert da == Decimal(a / 10) + [DigitChar(a % 10)];
      assert db == Decimal(b / 10) + [DigitChar(b % 10)];
      assert da[|da| - 1] == DigitChar(a % 10) && db[|db| - 1] == DigitChar(b % 10);
      assert da[..|da| - 1] == Decimal(a / 10) && db[..|db| - 1] == Decimal(b / 10);
      DecimalInjective(a / 10, b / 10);
    }
  }

  /** The name of the fragment made in iteration `i` (0-based) of the
      fragmentation loop, from an object named `base`: the base name, then
      the fragment marker, then the 1-based piece number in decimal. */
  function PieceName(base: string, i: nat): string
  {
    base + "_Piece_" + Decimal(i + 1)
  }

  /** A fragment name reads back as its parts: it starts with the base name,
      then comes the fragment marker and an underscore, and the rest spells
      the 1-based piece number. */
  lemma PieceNameParts(base: string, i: nat)
    ensures |PieceName(base, i)| > |base| + |FragmentMarker| + 1
    ensures PieceName(base, i)[..|base|] == base
    ensures PieceName(base, i)[|base|..|base| + |FragmentMarker|] == FragmentMarker
    ensures PieceName(base, i)[|base| + |FragmentMarker|] == '_'
    ensures PieceName(base, i)[|base| + |FragmentMarker| + 1..] == Decimal(i + 1)
    ensures var digits := PieceName(base, i)[|base| + |FragmentMarker| + 1..];
      && (forall k :: 0 <= k < |digits| ==> '0' <= digits[k] <= '9')
      && digits[0] != '0'
      && DigitsValue(digits) == i + 1
  {
    DecimalValue(i + 1);
    assert PieceName(base, i)[|base| + |FragmentMarker| + 1..] == Decimal(i + 1);
  }

  /** Every fragment name carries the fragment marker. */
  lemma PieceNameIsFragment(base: string, i: nat)
    ensures Contains(PieceName(base, i), FragmentMarker)
  {
    assert PieceName(base, i) == base + FragmentMarker + ("_" + Decimal(i + 1));
    ContainsInfix(base, FragmentMarker, "_" + Decimal(i + 1));
  }

  /** The fragments of one object have pairwise different names. */
  lemma PieceNamesDistinct(base: string, i: nat, j: nat)
    requires i != j
    ensures PieceName(base, i) != PieceName(base, j)
  {
    PieceNameParts(base, i);
    PieceNameParts(base, j);
  }
}

=== FILE: numerics.dfy ===
/** The arithmetic the destructible component performs on its random draws:
    the engine's `Random.Range(float, float)`, C#'s truncating integer
    division and `Mathf.FloorToInt`. A random draw is taken as a parameter,
    a value of the unit interval, and mapped onto the requested range. */
module Numerics {

  /** One value of the random source: a real number in [0, 1]. */
  type Unit = r: real | 0.0 <= r <= 1.0

  /** Three independent draws, one per axis of a vector. */
  datatype Draw3 = Draw3(x: Unit, y: Unit, z: Unit)

  /** A fraction of a non-negative width lies between zero and the width. */
  lemma ScaledWithin(t: Unit, w: real)
    requires 0.0 <= w
    ensures 0.0 <= t * w <= w
  {
    assert w - t * w == (1.0 - t) * w;
  }

  /** A point a fraction `t` of the way along an interval of width `w`
      starting at `lo`. */
  function Along(lo: real, w: real, t: Unit): (r: real)
    requires 0.0 <= w
    ensures lo <= r <= lo + w
    ensures t == 0.0 ==> r == lo
    ensures t == 1.0 ==> r == lo + w
  {
    ScaledWithin(t, w);
    lo + t * w
  }

  /** `Random.Range(lo, hi)` on floats: a value of the closed interval
      between the two bounds (in either order), both ends included. */
  function Range(lo: real, hi: real, t: Unit): (r: real)
    ensures lo <= hi ==> lo <= r <= hi
    ensures hi <= lo ==> hi <= r <= lo
    ensures t == 0.0 ==> r == lo
    ensures t == 1.0 ==> r == hi
  {
    if lo <= hi then Along(lo, hi - lo, t) else lo + hi - Along(hi, lo - hi, t)
  }

  /** C#'s `a / 2` on `int`: the quotient truncated toward zero (Dafny's own
      `/` rounds toward minus infinity for a negative `a`). */
  function HalfTowardZero(a: int): (q: int)
    ensures a >= 0 ==> 2 * q <= a <= 2 * q + 1
    ensures a < 0 ==> 2 * q - 1 <= a <= 2 * q
  {
    if a >= 0 then a / 2 else -((-a) / 2)
  }

  /** The bounds of the frame delay a fragment's removal timer is drawn from. */
  const MinRemovalFrames := 2500
  const MaxRemovalFrames := 5000

  /** `Mathf.FloorToInt(Random.Range(2500, 5000))`: the number of frames a
      fragment waits before it removes itself. */
  function RemovalDelay(t: Unit): (d: int)
    ensures MinRemovalFrames <= d <= MaxRemovalFrames
  {
    Range(MinRemovalFrames as real, MaxRemovalFrames as real, t).Floor
  }
}
